=== FILE: README.md ===
# AlbumApp offline cache and favourites, in Dafny

A model of the data and view-model layers of AlbumApp, an Android photo
catalogue that lists photos from a remote feed, caches them in a local Room
table and lets the user mark favourites. The Android, Room, Retrofit and
coroutine machinery is stripped away. What remains is pure transitions over
immutable values:

- `Photos`: the `Photo` entity, keyed by `id`, with `isFavorite` defaulting
  to `false`, and `copy(isFavorite = …)`.
- `SqlLike`: SQLite's `LIKE` operator as the search query uses it, and its
  relation to a case-insensitive substring test.
- `PhotoDao`: the `photos` table (`Store`, a map from id to row plus the
  scan order) and its five queries: REPLACE insert, full scan, favourites
  scan, author/id search and single-row update.
- `PhotoRepository`: `getPhotos(page)` (fetch, write, emit; on any exception
  emit the cache), plus its delegations to the table.
- `PhotoPagingSource`: `load` (page key, `prevKey`/`nextKey`, the cache
  fallback) and `getRefreshKey`.
- `PhotoViewModel`: the `favorites`, `photos` and `searchResults` views and
  the per-id favourite map, with `fetchPhotos`, `fetchFavorites`,
  `toggleFavorite`, `searchPhotos` and `isFavorite` as transitions on a
  `Session` (table plus view state), and `Run`, which applies them one after
  another.

Inputs the code gets from outside are parameters:

- The remote call is an `Attempt`. Its `remote` field is the listing the
  server returned, or `None` when the call threw.
- The `writeOk` field of `Attempt` is false when the table write after a
  successful call threw. That exception is caught by the same `catch`. The
  write is one transaction, so the table is left as it was.
- The paging library's `closestPageToPosition` is a function parameter of
  `GetRefreshKey`.

Scan order is modelled as row-insertion order, which is SQLite's rowid
order for this table. A REPLACE deletes the conflicting row and inserts a
fresh one, so a replaced row moves to the end. `@Update` changes a row in
place and keeps its position.

Behaviour of the code that a reader might not expect, and that the model
keeps:

- A stored favourite does not survive a re-fetch. Both callers write through
  `insertOrUpdatePhotos`, which the DAO does not declare. The only declared
  write is `insertPhotos` with `OnConflictStrategy.REPLACE`, which replaces
  the whole row, flag included, and the model uses it.
  `PhotoDao.ReplaceOverwritesFavorite` and
  `PhotoViewModel.LiveFetchUnflagsFavorite` show the consequence: a live
  fetch clears a stored favourite, and the views disagree with the table
  until `fetchFavorites` runs again.
- The store's search builds `LIKE '%%'` for the empty query, which matches
  every row. Only the view model clears the results for `""`.
- `@Update` on an absent id changes nothing and reports nothing.
- A toggle negates the flag of the argument it is given, not the stored
  flag, and writes the whole argument row back.
- The `catch (e: Exception)` around a fetch also swallows a failed write,
  and the cache is emitted.

## Model

| member | source | states |
|---|---|---|
| Photos.NewPhoto | app/src/main/java/com/mobil80/albumapp/data/model/Photo.kt:7-12 | a record built without naming the flag is not a favourite; the other fields are as given |
| Photos.WithFavorite | app/src/main/java/com/mobil80/albumapp/data/model/Photo.kt:7-12 | `copy(isFavorite = b)` sets the flag to `b` and keeps id, author and download URL |
| Photos.PhotoEquality | app/src/main/java/com/mobil80/albumapp/data/model/Photo.kt:7 | two records are equal iff all four fields are equal |
| Photos.CopyLaws | app/src/main/java/com/mobil80/albumapp/data/model/Photo.kt:7-12 | copying with the record's own flag is the identity; a second copy overrides the first |
| SqlLike.FoldCase | app/src/main/java/com/mobil80/albumapp/data/database/PhotoDao.kt:19 | LIKE compares ASCII letters case-insensitively and every other character exactly |
| SqlLike.ContainsPattern | app/src/main/java/com/mobil80/albumapp/data/database/PhotoDao.kt:19 | the pattern is the query wrapped in one `%` on each side |
| SqlLike.PercentMatchesAll | app/src/main/java/com/mobil80/albumapp/data/database/PhotoDao.kt:19 | a lone `%` matches every string |
| SqlLike.LikePrefix | app/src/main/java/com/mobil80/albumapp/data/database/PhotoDao.kt:19 | a wildcard-free `q` followed by `%` matches exactly the strings starting with `q`, ignoring ASCII case |
| SqlLike.LikeLeadingPercent | app/src/main/java/com/mobil80/albumapp/data/database/PhotoDao.kt:19 | a leading `%` lets the rest of the pattern match any suffix |
| SqlLike.LikeIsFoldedInfix | app/src/main/java/com/mobil80/albumapp/data/database/PhotoDao.kt:19-20 | for a wildcard-free query, `t LIKE '%'‖q‖'%'` iff `q` is a substring of `t` ignoring ASCII case |
| SqlLike.EmptyQueryMatchesAll | app/src/main/java/com/mobil80/albumapp/data/database/PhotoDao.kt:19-20 | the empty query's pattern `%%` matches every string |
| PhotoDao.InsertOne | app/src/main/java/com/mobil80/albumapp/data/database/PhotoDao.kt:10-11 | one REPLACE puts the record under its id and keeps the table well formed (one row per id) |
| PhotoDao.InsertPhotos | app/src/main/java/com/mobil80/albumapp/data/database/PhotoDao.kt:10-11 | after the batch, each id holds the last batch record with that id, whole; the keys are the old keys plus the batch ids; rows not in the batch are unchanged |
| PhotoDao.ReplaceOverwritesFavorite | app/src/main/java/com/mobil80/albumapp/data/database/PhotoDao.kt:10-11 | REPLACE does not preserve a stored favourite: a re-delivered record with the flag down stores the flag down |
| PhotoDao.GetAllPhotos | app/src/main/java/com/mobil80/albumapp/data/database/PhotoDao.kt:13-14 | the scan returns every stored row exactly once: length equals the row count, ids are distinct, membership is exactly "is the stored row" |
| PhotoDao.Select | app/src/main/java/com/mobil80/albumapp/data/database/PhotoDao.kt:16-20 | a WHERE filter keeps exactly the entries satisfying the condition |
| PhotoDao.SelectKeepsDistinct | app/src/main/java/com/mobil80/albumapp/data/database/PhotoDao.kt:16-20 | a filtered scan, like the full scan, holds each id at most once |
| PhotoDao.GetFavoritePhotos | app/src/main/java/com/mobil80/albumapp/data/database/PhotoDao.kt:16-17 | the favourites scan returns exactly the stored rows flagged favourite |
| PhotoDao.SearchPhotos | app/src/main/java/com/mobil80/albumapp/data/database/PhotoDao.kt:19-20 | the search returns exactly the stored rows whose author or id is LIKE `'%'‖q‖'%'` |
| PhotoDao.SearchWithinAll | app/src/main/java/com/mobil80/albumapp/data/database/PhotoDao.kt:13-20 | every search result appears in the full scan |
| PhotoDao.SearchIsSubstringMatch | app/src/main/java/com/mobil80/albumapp/data/database/PhotoDao.kt:19-20 | for a wildcard-free query, a row is a result iff it is stored and the query is a case-insensitive substring of its author or its id |
| PhotoDao.EmptySearchIsFullScan | app/src/main/java/com/mobil80/albumapp/data/database/PhotoDao.kt:19-20 | searching for `""` returns the full scan, in order |
| PhotoDao.UpdatePhoto | app/src/main/java/com/mobil80/albumapp/data/database/PhotoDao.kt:22-23 | the row with the record's id is replaced if present; an absent id changes nothing; no other row and not the order changes |
| PhotoRepository.GetPhotos | app/src/main/java/com/mobil80/albumapp/data/repository/PhotoRepository.kt:47-56 | one list is emitted; on success it is the response, written to the table first; on any failure (remote or write) it is the whole table, which is left unchanged; the remote call uses the default limit 100 |
| PhotoRepository.GetPhotosNeverDropsRows | app/src/main/java/com/mobil80/albumapp/data/repository/PhotoRepository.kt:47-56 | no outcome of `getPhotos` removes a row from the table |
| PhotoRepository.SuccessWrittenBeforeEmitted | app/src/main/java/com/mobil80/albumapp/data/repository/PhotoRepository.kt:48-51 | on success every emitted record (last of its id) is already in the table's scan |
| PhotoRepository.EmptyCacheFailureEmitsEmpty | app/src/main/java/com/mobil80/albumapp/data/repository/PhotoRepository.kt:52-55 | a failure over an empty table emits exactly one empty list |
| PhotoRepository.UpdateFavorite | app/src/main/java/com/mobil80/albumapp/data/repository/PhotoRepository.kt:25-27 | has the store update's contract: replace the row with that id if present, otherwise no change |
| PhotoRepository.GetFavorites | app/src/main/java/com/mobil80/albumapp/data/repository/PhotoRepository.kt:59 | returns exactly the stored favourites |
| PhotoRepository.SearchPhotos | app/src/main/java/com/mobil80/albumapp/data/repository/PhotoRepository.kt:61 | returns exactly the stored rows matching the LIKE search |
| PhotoRepository.RepositoryEmptySearchIsAll | app/src/main/java/com/mobil80/albumapp/data/repository/PhotoRepository.kt:61 | the repository does not special-case `""`: it returns the whole table |
| PhotoPagingSource.Wrap32 | app/src/main/java/com/mobil80/albumapp/data/helper/PhotoPagingSource.kt:13 | the `Int` result of an unbounded sum: in range, congruent to it modulo 2^32, the value itself inside the range, and the opposite bound one step past either end |
| PhotoPagingSource.PageKey | app/src/main/java/com/mobil80/albumapp/data/helper/PhotoPagingSource.kt:16 | the page is the supplied key, or 1 when none is given |
| PhotoPagingSource.Load | app/src/main/java/com/mobil80/albumapp/data/helper/PhotoPagingSource.kt:15-35 | always a page, never an error; on success the response is stored and returned with `prevKey` none iff page 1 (else page−1) and `nextKey` none iff the response is empty (else page+1); on failure the whole table, table unchanged, `prevKey` none, `nextKey` none iff the table is empty (else page+1); page ± 1 is `Int` arithmetic and wraps at the 32-bit bounds, and is the plain neighbour inside them |
| PhotoPagingSource.LastKeyWrapsToSmallest | app/src/main/java/com/mobil80/albumapp/data/helper/PhotoPagingSource.kt:24 | a non-empty live page at the largest `Int` key has the smallest `Int` as its next key |
| PhotoPagingSource.NextKeyStepsByOne | app/src/main/java/com/mobil80/albumapp/data/helper/PhotoPagingSource.kt:16-32 | from a positive key below the largest `Int`, any next key is the plain successor, so keys followed from page 1 grow by one and stay positive |
| PhotoPagingSource.EmptyPageIsTerminal | app/src/main/java/com/mobil80/albumapp/data/helper/PhotoPagingSource.kt:24 | an empty live page has no next key |
| PhotoPagingSource.GetRefreshKey | app/src/main/java/com/mobil80/albumapp/data/helper/PhotoPagingSource.kt:37-39 | with an anchor and a closest page, the refresh key is exactly that page's `prevKey`; it is none without an anchor or without a closest page |
| PhotoPagingSource.RefreshAfterLiveLoad | app/src/main/java/com/mobil80/albumapp/data/helper/PhotoPagingSource.kt:23-38 | refreshing at a page loaded live from key k ≠ 1 reloads from k−1 wrapped to `Int`, which is the plain k−1 unless k is the smallest `Int` |
| PhotoPagingSource.RefreshAfterFallbackRestarts | app/src/main/java/com/mobil80/albumapp/data/helper/PhotoPagingSource.kt:16-38 | refreshing at a cache-fallback page has no key, so the reload asks for page 1 |
| PhotoViewModel.FetchPhotos | app/src/main/java/com/mobil80/albumapp/presentation/viewmodels/PhotoViewModel.kt:54-65 | `photos` becomes the emitted list in order (the response, or the cache on failure), each flag true iff its id is among the current `favorites` ids; the other views are untouched |
| PhotoViewModel.FetchFavorites | app/src/main/java/com/mobil80/albumapp/presentation/viewmodels/PhotoViewModel.kt:67-78 | `favorites` becomes exactly the DAO's favourites scan of the table; `photos` keeps length, order and fields, each flag true iff its id is stored as a favourite, equivalently iff it appears in the new `favorites` |
| PhotoViewModel.Create | app/src/main/java/com/mobil80/albumapp/presentation/viewmodels/PhotoViewModel.kt:24-41 | a new view model has empty photos, results and per-id map, and `favorites` is exactly the DAO's favourites scan of the table, so each stored favourite appears once |
| PhotoViewModel.ToggleFavorite | app/src/main/java/com/mobil80/albumapp/presentation/viewmodels/PhotoViewModel.kt:80-102 | the argument with its flag negated replaces the stored row (if present); `favorites` equals the DAO's favourites scan of the new table; the per-id map records the new flag; `photos` and `searchResults` keep length and order, entries with that id take the new flag and all others are unchanged |
| PhotoViewModel.SearchPhotos | app/src/main/java/com/mobil80/albumapp/presentation/viewmodels/PhotoViewModel.kt:104-113 | `""` empties the results whatever the table holds; any other query replaces them with exactly the matching stored rows |
| PhotoViewModel.IsFavorite | app/src/main/java/com/mobil80/albumapp/presentation/viewmodels/PhotoViewModel.kt:116-118 | true only for an id whose recorded flag is true; the recorded flag when there is one |
| PhotoViewModel.CreateIsCoherent | app/src/main/java/com/mobil80/albumapp/presentation/viewmodels/PhotoViewModel.kt:39-41 | right after construction the views agree with the table |
| PhotoViewModel.FirstFetchStoresNonFavorite | app/src/main/java/com/mobil80/albumapp/presentation/viewmodels/PhotoViewModel.kt:54-65 | fetching one record into an empty table stores and shows it unstarred |
| PhotoViewModel.ToggleSoleRowMakesSoleFavorite | app/src/main/java/com/mobil80/albumapp/presentation/viewmodels/PhotoViewModel.kt:80-102 | when the table holds one unstarred row, toggling it as the list displays it makes it the single favourite and the per-id map reads true |
| PhotoViewModel.FirstFetchThenToggle | app/src/main/java/com/mobil80/albumapp/presentation/viewmodels/PhotoViewModel.kt:39-102 | the first-launch walk-through: construct, fetch one record, star it from the list; the table holds it unstarred in between and it ends as the only favourite |
| PhotoViewModel.FetchFavoritesRestoresCoherence | app/src/main/java/com/mobil80/albumapp/presentation/viewmodels/PhotoViewModel.kt:67-78 | after `fetchFavorites` the views agree with the table, from any state |
| PhotoViewModel.ToggleKeepsCoherence | app/src/main/java/com/mobil80/albumapp/presentation/viewmodels/PhotoViewModel.kt:80-101 | toggling a stored photo keeps the views in agreement with the table |
| PhotoViewModel.ToggleViewsAgree | app/src/main/java/com/mobil80/albumapp/presentation/viewmodels/PhotoViewModel.kt:82-100 | after toggling a stored photo, `favorites` holds its id iff the new flag is up, and `photos`, `searchResults` and `isFavorite` show the new flag |
| PhotoViewModel.SearchKeepsCoherence | app/src/main/java/com/mobil80/albumapp/presentation/viewmodels/PhotoViewModel.kt:104-113 | a search leaves the other views' agreement with the table as it was |
| PhotoViewModel.FallbackFetchKeepsCoherence | app/src/main/java/com/mobil80/albumapp/presentation/viewmodels/PhotoViewModel.kt:57-61 | a failed fetch shows the cache with the flags the table holds |
| PhotoViewModel.LiveFetchUnflagsFavorite | app/src/main/java/com/mobil80/albumapp/presentation/viewmodels/PhotoViewModel.kt:57-61 | a live fetch re-delivering a stored favourite clears the stored flag while `photos` still shows it as favourite, so the views no longer agree with the table |
| PhotoViewModel.UiDoubleToggleRestores | app/src/main/java/com/mobil80/albumapp/presentation/viewmodels/PhotoViewModel.kt:80-118 | a caller that toggles twice, each time passing the record with the flag `isFavorite` reports, gets back the original reported flag, in the map and in the table |
| PhotoViewModel.SameArgumentToggleIsNotUndone | app/src/main/java/com/mobil80/albumapp/presentation/viewmodels/PhotoViewModel.kt:82-83 | toggling twice with the same argument stores its negated flag both times, so the second toggle does not undo the first; the list screen's click handler passes the unpatched list item, so this is the case a double tap produces there |
| PhotoViewModel.EmptyQueryClearsResults | app/src/main/java/com/mobil80/albumapp/presentation/viewmodels/PhotoViewModel.kt:104-111 | the view model clears results for `""` although the repository search beneath it returns the whole table |
| PhotoViewModel.Step | app/src/main/java/com/mobil80/albumapp/presentation/viewmodels/PhotoViewModel.kt:54-113 | one operation keeps the table well formed, never removes a row, and only a toggle writes the per-id map |
| PhotoViewModel.Run | app/src/main/java/com/mobil80/albumapp/presentation/viewmodels/PhotoViewModel.kt:54-113 | any sequence of operations keeps the table well formed and never removes a row |
| PhotoViewModel.NeverToggledReadsFalse | app/src/main/java/com/mobil80/albumapp/presentation/viewmodels/PhotoViewModel.kt:116-118 | an id no operation toggled reads as not favourite through `isFavorite` |
| PhotoViewModel.FreshViewModelReadsFalse | app/src/main/java/com/mobil80/albumapp/presentation/viewmodels/PhotoViewModel.kt:37-41 | starting from a new view model, `isFavorite` is false for every id not toggled, even for rows stored as favourites |

## Left out

- Network reachability (`NetworkObserver`, `isInternetAvailable`, `onCleared` unregistering): the view model and the repository never consult it, so it does not affect any transition here. Only the screen does: pull-to-refresh reloads the pager only while it reports a connection, and the list is replaced by a message while offline. The screen is not modelled.
- `isLoading` and `isFavoritesLoading`: loading indicators only, and no transition reads them. Both start `true`. `isLoading` stays true until the first `fetchPhotos` collects, and `isFavoritesLoading` until the first favourites list arrives. Each operation is atomic here, so the flags are not modelled.
- The HTTP client and JSON decoding (`PhotoApi`): the remote result is an input. The decoder never sets `isFavorite`, so decoded records are non-favourites, as `NewPhoto` gives.
- The `page` and `limit` arguments only shape the remote request. The model records the request it sends but does not link the response to it. The pager's `loadSize` is an input. `getPagedPhotos` configures a page size of 100, but the paging library picks each load's size; the first (refresh) load uses the configuration's initial load size, which defaults to three page sizes.
- The paging library itself: the `Pager`, `cachedIn`, the page-window bookkeeping, `closestPageToPosition`, and the order in which it calls `load` with the keys a page returns. Only one `load` call at a time is modelled.
- Coroutines and Flow: dispatchers, `collectLatest`, concurrent launches and races between them. Every operation is atomic and sequential. A Room flow's later re-emissions are not modelled; `getAllPhotos().firstOrNull()` and `getFavorites().first()` read the current table.
- `getFavorites` is declared to return a `Flow` of the DAO's plain `List`, a type mismatch in the code. It is modelled as one read of the current favourites.
- Exceptions from table reads (the fallback's own read, `getFavoritePhotos`, `searchPhotos`) and from `updatePhoto` in a toggle: none is caught in the code, and the model assumes table reads and updates succeed.
- Room's singleton construction (`PhotoDatabase`) and the Compose UI.
- PhotoDao.GetFavoritePhotos: the contract states membership and distinct ids, not that the rows come in scan order.
- PhotoDao.SearchPhotos: the contract states membership and distinct ids, not that the rows come in scan order (`EmptySearchIsFullScan` does state order for `""`).
- PhotoViewModel.SearchPhotos: for a non-empty query, the contract states membership and distinct ids, not order.

=== FILE: photo.dfy ===
/** The `Photo` entity: one row of the `photos` table, keyed by `id`. */
module Photos {

  /** A photo record. `isFavorite` is the only field the device owns;
      the other three come from the remote listing. */
  datatype Photo = Photo(id: string, author: string, downloadUrl: string, isFavorite: bool)

  /** A record built without naming the flag, as the remote decoder builds
      them: the flag takes its default. */
  function NewPhoto(id: string, author: string, downloadUrl: string): (p: Photo)
    ensures !p.isFavorite
    ensures p.id == id && p.author == author && p.downloadUrl == downloadUrl
  {
    Photo(id, author, downloadUrl, false)
  }

  /** `copy(isFavorite = b)`: a new record differing at most in its flag. */
  function WithFavorite(p: Photo, b: bool): (q: Photo)
    ensures q.isFavorite == b
    ensures q.id == p.id && q.author == p.author && q.downloadUrl == p.downloadUrl
  {
    p.(isFavorite := b)
  }

  /** Data-class equality is structural over all four fields. */
  lemma PhotoEquality(p: Photo, q: Photo)
    ensures p == q <==>
      (p.id == q.id && p.author == q.author && p.downloadUrl == q.downloadUrl && p.isFavorite == q.isFavorite)
  {
  }

  /** Copying a record with its own flag gives the record back, and a second
      copy overrides the first. */
  lemma CopyLaws(p: Photo, a: bool, b: bool)
    ensures WithFavorite(p, p.isFavorite) == p
    ensures WithFavorite(WithFavorite(p, a), b) == WithFavorite(p, b)
  {
  }

  /** The ids occurring in a list of records. */
  function IdSet(ps: seq<Photo>): set<string>
  {
    set p | p in ps :: p.id
  }

  /** No two entries of `ps` share an id. */
  ghost predicate DistinctIds(ps: seq<Photo>)
  {
    forall i, j :: 0 <= i < j < |ps| ==> ps[i].id != ps[j].id
  }

  /** `ps[i]` is the last entry of `ps` carrying its id. */
  ghost predicate IsLastWithId(ps: seq<Photo>, i: int)
    requires 0 <= i < |ps|
  {
    forall j :: i < j < |ps| ==> ps[j].id != ps[i].id
  }

  /** `after` is `before` with the flag of every entry whose id is `id` set
      to `b`, and nothing else changed: same length, same order, same
      remote-owned fields. */
  ghost predicate Patched(before: seq<Photo>, after: seq<Photo>, id: string, b: bool)
  {
    && |after| == |before|
    && forall i :: 0 <= i < |before| ==>
         && after[i].id == before[i].id
         && after[i].author == before[i].author
         && after[i].downloadUrl == before[i].downloadUrl
         && (before[i].id == id ==> after[i].isFavorite == b)
         && (before[i].id != id ==> after[i] == before[i])
  }

  /** `after` is `before`, entry for entry, with each flag replaced by
      membership of the entry's id in `favIds`. */
  ghost predicate AnnotatedBy(before: seq<Photo>, after: seq<Photo>, favIds: set<string>)
  {
    && |after| == |before|
    && forall i :: 0 <= i < |before| ==>
         && after[i].id == before[i].id
         && after[i].author == before[i].author
         && after[i].downloadUrl == before[i].downloadUrl
         && (after[i].isFavorite <==> before[i].id in favIds)
  }
}

=== FILE: photo_dao.dfy ===
/** The `photos` table behind `PhotoDao`: rows keyed by id, kept in the order
    a full scan returns them (row-insertion order). */
module PhotoDao {
  import opened Photos
  import opened SqlLike

  /** The table: `rows` maps each primary key to its row, `order` lists the
      keys in scan order. */
  datatype Store = Store(rows: map<string, Photo>, order: seq<string>)

  function EmptyStore(): Store
  {
    Store(map[], [])
  }

  ghost predicate NoDuplicates(xs: seq<string>)
  {
    forall i, j :: 0 <= i < j < |xs| ==> xs[i] != xs[j]
  }

  /** Representation invariant: every row sits under its own id, and `order`
      lists every key exactly once. */
  ghost predicate Valid(s: Store)
  {
    && (forall id :: id in s.rows ==> s.rows[id].id == id)
    && NoDuplicates(s.order)
    && (forall i :: 0 <= i < |s.order| ==> s.order[i] in s.rows)
    && (forall id :: id in s.rows ==> id in s.order)
  }

  /** `p` is, as a whole, the row stored under its id. */
  ghost predicate Stored(s: Store, p: Photo)
  {
    p.id in s.rows && s.rows[p.id] == p
  }

  lemma NoDuplicatesCons(x: string, xs: seq<string>)
    requires NoDuplicates(xs) && x !in xs
    ensures NoDuplicates([x] + xs)
  {
    forall i, j | 0 <= i < j < |[x] + xs|
      ensures ([x] + xs)[i] != ([x] + xs)[j]
    {
      assert ([x] + xs)[j] == xs[j - 1];
      if i > 0 {
        assert ([x] + xs)[i] == xs[i - 1];
      }
    }
  }

  lemma NoDuplicatesSnoc(xs: seq<string>, x: string)
    requires NoDuplicates(xs) && x !in xs
    ensures NoDuplicates(xs + [x])
  {
    forall i, j | 0 <= i < j < |xs + [x]|
      ensures (xs + [x])[i] != (xs + [x])[j]
    {
      assert (xs + [x])[i] == xs[i];
    }
  }

  /** `xs` with every occurrence of `x` dropped. */
  function Without(xs: seq<string>, x: string): (r: seq<string>)
    ensures forall y :: y in r <==> y in xs && y != x
  {
    if |xs| == 0 then []
    else if xs[0] == x then Without(xs[1..], x)
    else [xs[0]] + Without(xs[1..], x)
  }

  lemma {:induction false} WithoutKeepsDistinct(xs: seq<string>, x: string)
    requires NoDuplicates(xs)
    ensures NoDuplicates(Without(xs, x))
  {
    if |xs| > 0 {
      assert NoDuplicates(xs[1..]) by {
        forall i, j | 0 <= i < j < |xs[1..]|
          ensures xs[1..][i] != xs[1..][j]
        {
          assert xs[1..][i] == xs[i + 1] && xs[1..][j] == xs[j + 1];
        }
      }
      WithoutKeepsDistinct(xs[1..], x);
      if xs[0] != x {
        assert xs[0] !in xs[1..];
        NoDuplicatesCons(xs[0], Without(xs[1..], x));
      }
    }
  }

  lemma {:induction false} DistinctCardinality(xs: seq<string>)
    requires NoDuplicates(xs)
    ensures |set y | y in xs| == |xs|
  {
    if |xs| > 0 {
      DistinctCardinality(xs[1..]);
      assert (set y | y in xs) == {xs[0]} + (set y | y in xs[1..]);
      assert xs[0] !in xs[1..];
    }
  }

  /** The number of rows equals the length of the scan order. */
  lemma OrderCoversRows(s: Store)
    requires Valid(s)
    ensures |s.order| == |s.rows|
  {
    DistinctCardinality(s.order);
    assert (set y | y in s.order) == s.rows.Keys;
  }

  /** One REPLACE insert: a row with the same id is deleted and the new row
      inserted afresh, so it moves to the end of the scan order. */
  function InsertOne(s: Store, p: Photo): (r: Store)
    requires Valid(s)
    ensures Valid(r)
    ensures r.rows == s.rows[p.id := p]
  {
    var order := Without(s.order, p.id);
    WithoutKeepsDistinct(s.order, p.id);
    NoDuplicatesSnoc(order, p.id);
    var r := Store(s.rows[p.id := p], order + [p.id]);
    assert forall i :: 0 <= i < |r.order| ==> r.order[i] in r.rows by {
      forall i | 0 <= i < |r.order|
        ensures r.order[i] in r.rows
      {
        if i < |order| {
          assert r.order[i] in order;
        }
      }
    }
    r
  }

  /** `insertPhotos(photos)` with `OnConflictStrategy.REPLACE`: every record
      of the batch is written whole (its flag included), a later duplicate id
      overriding an earlier one, and no other row changes. */
  function InsertPhotos(s: Store, batch: seq<Photo>): (r: Store)
    requires Valid(s)
    ensures Valid(r)
    ensures r.rows.Keys == s.rows.Keys + IdSet(batch)
    ensures forall i :: 0 <= i < |batch| && IsLastWithId(batch, i) ==> r.rows[batch[i].id] == batch[i]
    ensures forall id :: id in s.rows && id !in IdSet(batch) ==> r.rows[id] == s.rows[id]
    decreases |batch|
  {
    if |batch| == 0 then s
    else
      var t := InsertOne(s, batch[0]);
      var r := InsertPhotos(t, batch[1..]);
      InsertPhotosStep(s, batch, t, r);
      r
  }

  /** One step of `InsertPhotos`: writing the head, then the tail, meets the
      batch contract, given the contracts of the two writes. */
  lemma InsertPhotosStep(s: Store, batch: seq<Photo>, t: Store, r: Store)
    requires |batch| > 0
    requires t.rows == s.rows[batch[0].id := batch[0]]
    requires r.rows.Keys == t.rows.Keys + IdSet(batch[1..])
    requires forall i :: 0 <= i < |batch[1..]| && IsLastWithId(batch[1..], i) ==> r.rows[batch[1..][i].id] == batch[1..][i]
    requires forall id :: id in t.rows && id !in IdSet(batch[1..]) ==> r.rows[id] == t.rows[id]
    ensures r.rows.Keys == s.rows.Keys + IdSet(batch)
    ensures forall i :: 0 <= i < |batch| && IsLastWithId(batch, i) ==> r.rows[batch[i].id] == batch[i]
    ensures forall id :: id in s.rows && id !in IdSet(batch) ==> r.rows[id] == s.rows[id]
  {
    var tail := batch[1..];
    assert IdSet(batch) == {batch[0].id} + IdSet(tail) by {
      assert batch == [batch[0]] + tail;
    }
    forall i | 0 <= i < |batch| && IsLastWithId(batch, i)
      ensures r.rows[batch[i].id] == batch[i]
    {
      if i == 0 {
        assert batch[0].id !in IdSet(tail);
      } else {
        assert tail[i - 1] == batch[i];
        assert IsLastWithId(tail, i - 1) by {
          forall j | i - 1 < j < |tail|
            ensures tail[j].id != tail[i - 1].id
          {
            assert tail[j] == batch[j + 1];
          }
        }
      }
    }
  }

  /** `getAllPhotos()`: the whole table in scan order. */
  function GetAllPhotos(s: Store): (r: seq<Photo>)
    requires Valid(s)
    ensures |r| == |s.rows|
    ensures DistinctIds(r)
    ensures forall p :: p in r <==> Stored(s, p)
  {
    var r := seq(|s.order|, i requires 0 <= i < |s.order| => s.rows[s.order[i]]);
    OrderCoversRows(s);
    assert forall p :: Stored(s, p) ==> p in r by {
      forall p | Stored(s, p)
        ensures p in r
      {
        var i :| 0 <= i < |s.order| && s.order[i] == p.id;
        assert r[i] == p;
      }
    }
    r
  }

  /** The WHERE clauses of the two filtered queries. */
  datatype Condition = FavoriteOnly | AuthorOrIdLike(query: string)

  /** `author LIKE '%' || q || '%' OR id LIKE '%' || q || '%'`. */
  predicate MatchesQuery(p: Photo, q: string)
  {
    Like(p.author, ContainsPattern(q)) || Like(p.id, ContainsPattern(q))
  }

  predicate Holds(c: Condition, p: Photo)
  {
    match c
    case FavoriteOnly => p.isFavorite
    case AuthorOrIdLike(q) => MatchesQuery(p, q)
  }

  /** The rows of `ps` satisfying `c`, in the order of `ps`. */
  function Select(ps: seq<Photo>, c: Condition): (r: seq<Photo>)
    ensures forall p :: p in r <==> p in ps && Holds(c, p)
    ensures |r| <= |ps|
  {
    if |ps| == 0 then []
    else if Holds(c, ps[0]) then [ps[0]] + Select(ps[1..], c)
    else Select(ps[1..], c)
  }

  /** Filtering keeps ids distinct. */
  lemma {:induction false} SelectKeepsDistinct(ps: seq<Photo>, c: Condition)
    requires DistinctIds(ps)
    ensures DistinctIds(Select(ps, c))
  {
    if |ps| > 0 {
      var tail := ps[1..];
      assert DistinctIds(tail) by {
        forall i, j | 0 <= i < j < |tail|
          ensures tail[i].id != tail[j].id
        {
          assert tail[i] == ps[i + 1] && tail[j] == ps[j + 1];
        }
      }
      SelectKeepsDistinct(tail, c);
      var rest := Select(tail, c);
      if Holds(c, ps[0]) {
        assert ps[0].id !in IdSet(rest) by {
          forall q | q in rest
            ensures q.id != ps[0].id
          {
            var k :| 0 <= k < |tail| && tail[k] == q;
            assert ps[k + 1] == q;
          }
        }
        var r := [ps[0]] + rest;
        forall i, j | 0 <= i < j < |r|
          ensures r[i].id != r[j].id
        {
          assert r[j] == rest[j - 1];
          if i > 0 {
            assert r[i] == rest[i - 1];
          } else {
            assert rest[j - 1] in rest;
          }
        }
      }
    }
  }

  /** `getFavoritePhotos()`: exactly the stored rows flagged favourite. */
  function GetFavoritePhotos(s: Store): (r: seq<Photo>)
    requires Valid(s)
    ensures DistinctIds(r)
    ensures forall p :: p in r <==> Stored(s, p) && p.isFavorite
  {
    SelectKeepsDistinct(GetAllPhotos(s), FavoriteOnly);
    Select(GetAllPhotos(s), FavoriteOnly)
  }

  /** `searchPhotos(query)`: exactly the stored rows whose author or id is
      LIKE `'%' || query || '%'`. */
  function SearchPhotos(s: Store, query: string): (r: seq<Photo>)
    requires Valid(s)
    ensures DistinctIds(r)
    ensures |r| <= |s.rows|
    ensures forall p :: p in r <==> Stored(s, p) && MatchesQuery(p, query)
  {
    SelectKeepsDistinct(GetAllPhotos(s), AuthorOrIdLike(query));
    Select(GetAllPhotos(s), AuthorOrIdLike(query))
  }

  /** `updatePhoto(photo)` (`@Update`): the row with `photo.id`, if any, is
      overwritten in place; a missing id changes nothing. */
  function UpdatePhoto(s: Store, photo: Photo): (r: Store)
    requires Valid(s)
    ensures Valid(r)
    ensures r.rows.Keys == s.rows.Keys && r.order == s.order
    ensures photo.id in s.rows ==> r.rows[photo.id] == photo
    ensures photo.id !in s.rows ==> r == s
    ensures forall id :: id in s.rows && id != photo.id ==> r.rows[id] == s.rows[id]
  {
    if photo.id in s.rows then Store(s.rows[photo.id := photo], s.order) else s
  }

  /** A search result is always one of the stored rows, so it appears in
      the full scan. */
  lemma SearchWithinAll(s: Store, query: string)
    requires Valid(s)
    ensures forall p :: p in SearchPhotos(s, query) ==> p in GetAllPhotos(s)
  {
  }

  /** For a query without wildcards, a row matches exactly when the query is
      a substring of its author or of its id, ignoring ASCII case. */
  lemma SearchIsSubstringMatch(s: Store, query: string, p: Photo)
    requires Valid(s)
    requires WildcardFree(query)
    ensures p in SearchPhotos(s, query) <==>
      Stored(s, p) && (FoldedInfix(query, p.author) || FoldedInfix(query, p.id))
  {
    LikeIsFoldedInfix(p.author, query);
    LikeIsFoldedInfix(p.id, query);
  }

  lemma {:induction false} SelectKeepsAll(ps: seq<Photo>, c: Condition)
    requires forall i :: 0 <= i < |ps| ==> Holds(c, ps[i])
    ensures Select(ps, c) == ps
  {
    if |ps| > 0 {
      var tail := ps[1..];
      assert forall i :: 0 <= i < |tail| ==> Holds(c, tail[i]) by {
        forall i | 0 <= i < |tail|
          ensures Holds(c, tail[i])
        {
          assert tail[i] == ps[i + 1];
        }
      }
      SelectKeepsAll(tail, c);
      assert Select(ps, c) == [ps[0]] + Select(tail, c);
      assert ps == [ps[0]] + tail;
    }
  }

  /** The store itself has no empty-query special case: `''` builds the
      pattern `%%` and the search returns the full scan, in order. */
  lemma EmptySearchIsFullScan(s: Store)
    requires Valid(s)
    ensures SearchPhotos(s, "") == GetAllPhotos(s)
  {
    var all := GetAllPhotos(s);
    forall i | 0 <= i < |all|
      ensures Holds(AuthorOrIdLike(""), all[i])
    {
      EmptyQueryMatchesAll(all[i].author);
    }
    SelectKeepsAll(GetAllPhotos(s), AuthorOrIdLike(""));
  }

  /** REPLACE does not preserve favourites: re-inserting a favourite's id with
      the flag down stores the flag down. */
  lemma ReplaceOverwritesFavorite(s: Store, batch: seq<Photo>, i: int)
    requires Valid(s)
    requires 0 <= i < |batch| && IsLastWithId(batch, i)
    requires batch[i].id in s.rows && s.rows[batch[i].id].isFavorite
    requires !batch[i].isFavorite
    ensures !InsertPhotos(s, batch).rows[batch[i].id].isFavorite
  {
  }
}

=== FILE: photo_paging_source.dfy ===
/** `PhotoPagingSource`: the page-key state machine of the paged list, with
    the cache substituted for a failed page. */
module PhotoPagingSource {
  import opened Wrappers
  import opened Photos
  import opened PhotoDao
  import opened PhotoRepository

  /** Kotlin's `Int`: page keys are 32-bit two's-complement integers. */
  const Int32Min: int := -0x8000_0000
  const Int32Max: int := 0x7fff_ffff
  type Int32 = x: int | -0x8000_0000 <= x <= 0x7fff_ffff

  /** The `Int` that an unbounded result wraps to: the one in range that
      differs from `x` by a multiple of 2^32. */
  function Wrap32(x: int): (r: Int32)
    ensures (r - x) % 0x1_0000_0000 == 0
    ensures Int32Min <= x <= Int32Max ==> r == x
    ensures x == Int32Max + 1 ==> r == Int32Min
    ensures x == Int32Min - 1 ==> r == Int32Max
  {
    (x - Int32Min) % 0x1_0000_0000 + Int32Min
  }

  /** The key asked for (`None` on the first load) and the load size the
      pager passes along. */
  datatype LoadParams = LoadParams(key: Option<Int32>, loadSize: int)

  /** `LoadResult.Page`: the data and the keys of its neighbours. */
  datatype Page = Page(data: seq<Photo>, prevKey: Option<Int32>, nextKey: Option<Int32>)

  datatype LoadResult = Loaded(page: Page) | LoadError(reason: string)

  /** One `load` call: the request sent, the table after it, and its result. */
  datatype LoadStep = LoadStep(request: Request, store: Store, result: LoadResult)

  /** The page a load asks for: the given key, or 1 when there is none. */
  function PageKey(params: LoadParams): (page: Int32)
    ensures params.key.Some? ==> page == params.key.value
    ensures params.key.None? ==> page == 1
  {
    params.key.GetOr(1)
  }

  /** `load(params)`. On success the response is written to the table and
      returned with `prevKey = page - 1` (none on page 1) and `nextKey =
      page + 1` (none for an empty response), both in `Int` arithmetic, so
      they wrap at the 32-bit bounds. On any exception the whole
      table is returned, the table is left as it was, `prevKey` is none and
      `nextKey` is `page + 1` unless the table is empty. Never an error. */
  function Load(s: Store, params: LoadParams, a: Attempt): (r: LoadStep)
    requires Valid(s)
    ensures Valid(r.store)
    ensures r.result.Loaded?
    ensures r.request == Request(PageKey(params), params.loadSize)
    ensures Succeeds(a) ==>
      var page, response := PageKey(params), a.remote.value;
      && r.store == InsertPhotos(s, response)
      && r.result.page.data == response
      && (r.result.page.prevKey.None? <==> page == 1)
      && (r.result.page.prevKey.Some? ==> r.result.page.prevKey.value == Wrap32(page - 1))
      && (r.result.page.prevKey.Some? && page > Int32Min ==> r.result.page.prevKey.value == page - 1)
      && (r.result.page.nextKey.None? <==> |response| == 0)
      && (r.result.page.nextKey.Some? ==> r.result.page.nextKey.value == Wrap32(page + 1))
      && (r.result.page.nextKey.Some? && page < Int32Max ==> r.result.page.nextKey.value == page + 1)
    ensures !Succeeds(a) ==>
      var page := PageKey(params);
      && r.store == s
      && (forall p :: p in r.result.page.data <==> Stored(s, p))
      && |r.result.page.data| == |s.rows|
      && r.result.page.prevKey.None?
      && (r.result.page.nextKey.None? <==> |s.rows| == 0)
      && (r.result.page.nextKey.Some? ==> r.result.page.nextKey.value == Wrap32(page + 1))
      && (r.result.page.nextKey.Some? && page < Int32Max ==> r.result.page.nextKey.value == page + 1)
  {
    var page := PageKey(params);
    var request := Request(page, params.loadSize);
    if Succeeds(a) then
      var response := a.remote.value;
      LoadStep(request, InsertPhotos(s, response),
        Loaded(Page(response,
                    if page == 1 then None else Some(Wrap32(page - 1)),
                    if |response| == 0 then None else Some(Wrap32(page + 1)))))
    else
      var cached := GetAllPhotos(s);
      LoadStep(request, s,
        Loaded(Page(cached, None, if |cached| == 0 then None else Some(Wrap32(page + 1)))))
  }

  /** `getRefreshKey(state)`: the `prevKey` of the page closest to the
      anchor position, or none when there is no anchor or no such page.
      Finding the closest page belongs to the paging library and is passed
      in as `closestPageToPosition`. */
  function GetRefreshKey(anchorPosition: Option<int>, closestPageToPosition: int -> Option<Page>): (r: Option<Int32>)
    ensures anchorPosition.None? ==> r.None?
    ensures anchorPosition.Some? && closestPageToPosition(anchorPosition.value).Some? ==>
      r == closestPageToPosition(anchorPosition.value).value.prevKey
    ensures anchorPosition.Some? && closestPageToPosition(anchorPosition.value).None? ==> r.None?
    ensures r.Some? ==>
      && anchorPosition.Some?
      && closestPageToPosition(anchorPosition.value).Some?
      && closestPageToPosition(anchorPosition.value).value.prevKey == r
  {
    match anchorPosition
    case None => None
    case Some(anchor) =>
      match closestPageToPosition(anchor)
      case None => None
      case Some(page) => page.prevKey
  }

  /** Refreshing at a page that was loaded live from key `k != 1` reloads
      from `k - 1`, wrapped to `Int`; below the lowest key that is the
      plain predecessor. */
  lemma RefreshAfterLiveLoad(s: Store, k: Int32, loadSize: int, a: Attempt,
                             anchor: int, closest: int -> Option<Page>)
    requires Valid(s) && Succeeds(a) && k != 1
    requires closest(anchor) == Some(Load(s, LoadParams(Some(k), loadSize), a).result.page)
    ensures GetRefreshKey(Some(anchor), closest) == Some(Wrap32(k - 1))
    ensures k > Int32Min ==> GetRefreshKey(Some(anchor), closest) == Some(k - 1)
  {
  }

  /** A live, non-empty page at the largest `Int` key names the smallest
      `Int` as its next key: `page + 1` overflows. */
  lemma LastKeyWrapsToSmallest(s: Store, loadSize: int, a: Attempt)
    requires Valid(s) && Succeeds(a) && |a.remote.value| > 0
    ensures Load(s, LoadParams(Some(Int32Max), loadSize), a).result.page.nextKey == Some(Int32Min)
  {
  }

  /** Below the largest `Int`, a positive key's next key is its plain
      successor, so the keys a pager follows from the first load (page 1)
      grow by one and stay positive. */
  lemma NextKeyStepsByOne(s: Store, k: Int32, loadSize: int, a: Attempt)
    requires Valid(s) && 1 <= k < Int32Max
    ensures var next := Load(s, LoadParams(Some(k), loadSize), a).result.page.nextKey;
      next.Some? ==> 1 < next.value == k + 1
  {
  }

  /** Refreshing at a page that came from the cache fallback has no key, so
      the reload starts again at page 1. */
  lemma RefreshAfterFallbackRestarts(s: Store, params: LoadParams, a: Attempt,
                                     anchor: int, closest: int -> Option<Page>,
                                     t: Store, loadSize: int, b: Attempt)
    requires Valid(s) && Valid(t) && !Succeeds(a)
    requires closest(anchor) == Some(Load(s, params, a).result.page)
    ensures GetRefreshKey(Some(anchor), closest).None?
    ensures Load(t, LoadParams(GetRefreshKey(Some(anchor), closest), loadSize), b).request.page == 1
  {
  }

  /** An empty live page is terminal. */
  lemma EmptyPageIsTerminal(s: Store, params: LoadParams, a: Attempt)
    requires Valid(s) && Succeeds(a) && a.remote.value == []
    ensures Load(s, params, a).result.page.nextKey.None?
  {
  }
}

=== FILE: photo_repository.dfy ===
/** `PhotoRepository`: fetch-then-cache with cache fallback, and thin
    delegations to the store. */
module PhotoRepository {
  import opened Wrappers
  import opened Photos
  import opened PhotoDao

  /** `limit` that `getPhotos(page)` leaves at the remote call's default. */
  const DefaultLimit: int := 100

  /** One remote call and the store write that follows it. `remote` is the
      listing the server returned, or `None` when the call threw; `writeOk`
      is false when the store write after a successful call threw (the
      write is one transaction, so a failed write leaves the table as it
      was). */
  datatype Attempt = Attempt(remote: Option<seq<Photo>>, writeOk: bool)

  /** Both the remote call and the store write went through; any other
      attempt lands in the `catch` branch. */
  predicate Succeeds(a: Attempt)
  {
    a.remote.Some? && a.writeOk
  }

  /** The query the remote listing was asked for. */
  datatype Request = Request(page: int, limit: int)

  /** What one `getPhotos(page)` flow does: the request it sends, the table
      after it, and the lists it emits. */
  datatype Fetch = Fetch(request: Request, store: Store, emissions: seq<seq<Photo>>)

  /** `getPhotos(page)`: on success the response is written to the table and
      then emitted as received; on any exception the current table is
      emitted instead and the table is left as it was. Exactly one list is
      emitted either way, and an empty table gives an empty list. */
  function GetPhotos(s: Store, page: int, a: Attempt): (r: Fetch)
    requires Valid(s)
    ensures Valid(r.store)
    ensures r.request == Request(page, DefaultLimit)
    ensures |r.emissions| == 1
    ensures Succeeds(a) ==>
      && r.emissions[0] == a.remote.value
      && r.store == InsertPhotos(s, a.remote.value)
    ensures !Succeeds(a) ==>
      && r.store == s
      && |r.emissions[0]| == |s.rows|
      && forall p :: p in r.emissions[0] <==> Stored(s, p)
  {
    var request := Request(page, DefaultLimit);
    if Succeeds(a) then
      Fetch(request, InsertPhotos(s, a.remote.value), [a.remote.value])
    else
      Fetch(request, s, [GetAllPhotos(s)])
  }

  /** `updateFavorite(photo)` is the store's `updatePhoto(photo)`. */
  function UpdateFavorite(s: Store, photo: Photo): (r: Store)
    requires Valid(s)
    ensures Valid(r)
    ensures r.rows.Keys == s.rows.Keys && r.order == s.order
    ensures photo.id in s.rows ==> r.rows[photo.id] == photo
    ensures photo.id !in s.rows ==> r == s
    ensures forall id :: id in s.rows && id != photo.id ==> r.rows[id] == s.rows[id]
  {
    UpdatePhoto(s, photo)
  }

  /** `getFavorites()`: the store's favourites-only scan. */
  function GetFavorites(s: Store): (r: seq<Photo>)
    requires Valid(s)
    ensures DistinctIds(r)
    ensures forall p :: p in r <==> Stored(s, p) && p.isFavorite
  {
    GetFavoritePhotos(s)
  }

  /** `searchPhotos(query)`: the store search, passed through unchanged,
      empty query included. */
  function SearchPhotos(s: Store, query: string): (r: seq<Photo>)
    requires Valid(s)
    ensures DistinctIds(r)
    ensures forall p :: p in r <==> Stored(s, p) && MatchesQuery(p, query)
  {
    PhotoDao.SearchPhotos(s, query)
  }

  /** The repository search does not short-circuit the empty query: it
      returns the whole table. */
  lemma RepositoryEmptySearchIsAll(s: Store)
    requires Valid(s)
    ensures SearchPhotos(s, "") == GetAllPhotos(s)
  {
    EmptySearchIsFullScan(s);
  }

  /** No outcome of `getPhotos` removes a row or empties the table: the
      fallback leaves it untouched and a successful write only adds or
      replaces rows. */
  lemma GetPhotosNeverDropsRows(s: Store, page: int, a: Attempt)
    requires Valid(s)
    ensures s.rows.Keys <= GetPhotos(s, page, a).store.rows.Keys
  {
  }

  /** On success the table is written before anything is emitted: every
      emitted record that is the last with its id is already the stored
      row, so a reader of the table after the emission sees it. */
  lemma SuccessWrittenBeforeEmitted(s: Store, page: int, a: Attempt)
    requires Valid(s)
    requires Succeeds(a)
    ensures var r := GetPhotos(s, page, a);
      forall i :: 0 <= i < |r.emissions[0]| && IsLastWithId(r.emissions[0], i) ==>
        r.emissions[0][i] in GetAllPhotos(r.store)
  {
  }

  /** A remote failure over an empty table emits one empty list, not an
      error. */
  lemma EmptyCacheFailureEmitsEmpty(page: int, a: Attempt)
    requires !Succeeds(a)
    ensures GetPhotos(EmptyStore(), page, a).emissions == [[]]
  {
  }
}

=== FILE: photo_view_model.dfy ===
/** `PhotoViewModel`: the favourites, photos and search-result views and the
    per-id favourite map, each operation a transition on a `Session`. */
module PhotoViewModel {
  import opened Wrappers
  import opened Photos
  import opened PhotoDao
  import Repo = PhotoRepository

  /** The in-memory state the screens observe. */
  datatype ViewState = ViewState(
    favorites: seq<Photo>,
    photos: seq<Photo>,
    searchResults: seq<Photo>,
    favoriteStates: map<string, bool>)

  /** The table together with the view model's state. */
  datatype Session = Session(store: Store, view: ViewState)

  function EmptyView(): ViewState
  {
    ViewState([], [], [], map[])
  }

  /** The ids whose stored row is flagged favourite. */
  function FavoriteKeys(s: Store): set<string>
  {
    set id | id in s.rows && s.rows[id].isFavorite
  }

  /** Each entry of `ps` with its flag set from membership in `favIds`. */
  function Annotate(ps: seq<Photo>, favIds: set<string>): (r: seq<Photo>)
    ensures AnnotatedBy(ps, r, favIds)
  {
    seq(|ps|, i requires 0 <= i < |ps| => WithFavorite(ps[i], ps[i].id in favIds))
  }

  /** Each entry of `ps` whose id is `id` with its flag set to `b`. */
  function PatchFlag(ps: seq<Photo>, id: string, b: bool): (r: seq<Photo>)
    ensures Patched(ps, r, id, b)
  {
    seq(|ps|, i requires 0 <= i < |ps| => if ps[i].id == id then WithFavorite(ps[i], b) else ps[i])
  }

  /** The ids of the store's favourites scan are the keys flagged favourite. */
  lemma FavoriteScanIds(s: Store)
    requires Valid(s)
    ensures IdSet(GetFavoritePhotos(s)) == FavoriteKeys(s)
  {
    forall id | id in FavoriteKeys(s)
      ensures id in IdSet(GetFavoritePhotos(s))
    {
      assert s.rows[id] in GetFavoritePhotos(s);
    }
  }

  /** `fetchPhotos(page)`: the repository fetch runs, and the list it emits
      becomes `photos`, in order, each flag set from the ids of the current
      `favorites` list. The other views are untouched. */
  function FetchPhotos(s: Session, page: int, a: Repo.Attempt): (r: Session)
    requires Valid(s.store)
    ensures Valid(r.store)
    ensures Repo.Succeeds(a) ==>
      && r.store == InsertPhotos(s.store, a.remote.value)
      && AnnotatedBy(a.remote.value, r.view.photos, IdSet(s.view.favorites))
    ensures !Repo.Succeeds(a) ==>
      && r.store == s.store
      && AnnotatedBy(GetAllPhotos(s.store), r.view.photos, IdSet(s.view.favorites))
    ensures r.view.favorites == s.view.favorites
    ensures r.view.searchResults == s.view.searchResults
    ensures r.view.favoriteStates == s.view.favoriteStates
  {
    var fetch := Repo.GetPhotos(s.store, page, a);
    // The flow emits exactly one list; collecting it sets `photos` once.
    var list := fetch.emissions[0];
    assert list == if Repo.Succeeds(a) then a.remote.value else GetAllPhotos(s.store);
    Session(fetch.store, s.view.(photos := Annotate(list, IdSet(s.view.favorites))))
  }

  /** `fetchFavorites()`: `favorites` becomes the store's favourites and every
      entry of `photos` keeps its place and fields but takes its flag from
      that list, which is the flag stored under its id. */
  function FetchFavorites(s: Session): (r: Session)
    requires Valid(s.store)
    ensures r.store == s.store
    ensures r.view.favorites == GetFavoritePhotos(s.store)
    ensures forall p :: p in r.view.favorites <==> Stored(s.store, p) && p.isFavorite
    ensures AnnotatedBy(s.view.photos, r.view.photos, IdSet(r.view.favorites))
    ensures AnnotatedBy(s.view.photos, r.view.photos, FavoriteKeys(s.store))
    ensures r.view.searchResults == s.view.searchResults
    ensures r.view.favoriteStates == s.view.favoriteStates
  {
    var favs := Repo.GetFavorites(s.store);
    FavoriteScanIds(s.store);
    Session(s.store, s.view.(favorites := favs, photos := Annotate(s.view.photos, IdSet(favs))))
  }

  /** The view model as built: empty views, then `fetchFavorites()`. */
  function Create(store: Store): (r: Session)
    requires Valid(store)
    ensures r.store == store
    ensures r.view.photos == [] && r.view.searchResults == [] && r.view.favoriteStates == map[]
    ensures r.view.favorites == GetFavoritePhotos(store)
    ensures forall p :: p in r.view.favorites <==> Stored(store, p) && p.isFavorite
  {
    FetchFavorites(Session(store, EmptyView()))
  }

  /** `toggleFavorite(photo)`: the argument, its flag negated, is written back
      whole through `updateFavorite` (nothing happens in the table if its id
      is absent); `favorites` is re-read from the table; the per-id map
      records the new flag; and in `photos` and `searchResults` exactly the
      entries with that id take the new flag. The new flag comes from the
      argument, not from the stored row. */
  function ToggleFavorite(s: Session, photo: Photo): (r: Session)
    requires Valid(s.store)
    ensures Valid(r.store)
    ensures r.store.rows.Keys == s.store.rows.Keys
    ensures photo.id in s.store.rows ==> r.store.rows[photo.id] == WithFavorite(photo, !photo.isFavorite)
    ensures photo.id !in s.store.rows ==> r.store == s.store
    ensures forall id :: id in s.store.rows && id != photo.id ==> r.store.rows[id] == s.store.rows[id]
    ensures r.view.favorites == GetFavoritePhotos(r.store)
    ensures forall p :: p in r.view.favorites <==> Stored(r.store, p) && p.isFavorite
    ensures r.view.favoriteStates == s.view.favoriteStates[photo.id := !photo.isFavorite]
    ensures Patched(s.view.photos, r.view.photos, photo.id, !photo.isFavorite)
    ensures Patched(s.view.searchResults, r.view.searchResults, photo.id, !photo.isFavorite)
  {
    var updated := WithFavorite(photo, !photo.isFavorite);
    var store := Repo.UpdateFavorite(s.store, updated);
    var favs := Repo.GetFavorites(store);
    Session(store, ViewState(
      favs,
      PatchFlag(s.view.photos, photo.id, updated.isFavorite),
      PatchFlag(s.view.searchResults, photo.id, updated.isFavorite),
      s.view.favoriteStates[photo.id := updated.isFavorite]))
  }

  /** `searchPhotos(query)`: an empty query clears the results whatever the
      table holds; any other query replaces them wholesale with the store
      search. */
  function SearchPhotos(s: Session, query: string): (r: Session)
    requires Valid(s.store)
    ensures r.store == s.store
    ensures query == "" ==> r.view.searchResults == []
    ensures query != "" ==>
      && DistinctIds(r.view.searchResults)
      && forall p :: p in r.view.searchResults <==> Stored(s.store, p) && MatchesQuery(p, query)
    ensures r.view.favorites == s.view.favorites
    ensures r.view.photos == s.view.photos
    ensures r.view.favoriteStates == s.view.favoriteStates
  {
    var results := if query == "" then [] else Repo.SearchPhotos(s.store, query);
    Session(s.store, s.view.(searchResults := results))
  }

  /** `isFavorite(photoId)`: the flag last recorded by a toggle of that id,
      false for an id never toggled. */
  function IsFavorite(s: Session, photoId: string): (b: bool)
    ensures b ==> photoId in s.view.favoriteStates
    ensures photoId in s.view.favoriteStates ==> b == s.view.favoriteStates[photoId]
  {
    if photoId in s.view.favoriteStates then s.view.favoriteStates[photoId] else false
  }

  /** The views agree with the table: `favorites` is exactly the stored
      favourites and every entry of `photos` is flagged exactly when its id
      is stored as a favourite. */
  ghost predicate Coherent(s: Session)
  {
    && Valid(s.store)
    && (forall p :: p in s.view.favorites <==> Stored(s.store, p) && p.isFavorite)
    && (forall i :: 0 <= i < |s.view.photos| ==>
          (s.view.photos[i].isFavorite <==> s.view.photos[i].id in FavoriteKeys(s.store)))
  }

  /** A freshly built view model is coherent. */
  lemma CreateIsCoherent(store: Store)
    requires Valid(store)
    ensures Coherent(Create(store))
  {
  }

  /** `fetchFavorites()` restores coherence from any state. */
  lemma FetchFavoritesRestoresCoherence(s: Session)
    requires Valid(s.store)
    ensures Coherent(FetchFavorites(s))
  {
  }

  /** Toggling a stored photo keeps the views coherent, whatever flag the
      argument carried. */
  lemma ToggleKeepsCoherence(s: Session, photo: Photo)
    requires Coherent(s)
    requires photo.id in s.store.rows
    ensures Coherent(ToggleFavorite(s, photo))
  {
    var r := ToggleFavorite(s, photo);
    assert FavoriteKeys(r.store) ==
      if !photo.isFavorite then FavoriteKeys(s.store) + {photo.id} else FavoriteKeys(s.store) - {photo.id};
    forall i | 0 <= i < |r.view.photos|
      ensures r.view.photos[i].isFavorite <==> r.view.photos[i].id in FavoriteKeys(r.store)
    {
      assert r.view.photos[i].id == s.view.photos[i].id;
    }
  }

  /** After a toggle of a stored photo, `favorites` holds its id exactly when
      the new flag is up, and `photos` and `searchResults` show that flag. */
  lemma ToggleViewsAgree(s: Session, photo: Photo)
    requires Valid(s.store)
    requires photo.id in s.store.rows
    ensures var r := ToggleFavorite(s, photo);
      && (photo.id in IdSet(r.view.favorites) <==> !photo.isFavorite)
      && (forall q :: q in r.view.photos && q.id == photo.id ==> q.isFavorite == !photo.isFavorite)
      && (forall q :: q in r.view.searchResults && q.id == photo.id ==> q.isFavorite == !photo.isFavorite)
      && IsFavorite(r, photo.id) == !photo.isFavorite
  {
    var r := ToggleFavorite(s, photo);
    if !photo.isFavorite {
      assert r.store.rows[photo.id] in r.view.favorites;
    }
  }

  /** A search leaves coherence as it was. */
  lemma SearchKeepsCoherence(s: Session, query: string)
    requires Coherent(s)
    ensures Coherent(SearchPhotos(s, query))
  {
  }

  /** A failed fetch leaves the table alone and flags the cached rows from
      the current favourites, so coherence survives it. */
  lemma FallbackFetchKeepsCoherence(s: Session, page: int, a: Repo.Attempt)
    requires Coherent(s)
    requires !Repo.Succeeds(a)
    ensures Coherent(FetchPhotos(s, page, a))
  {
    FavoriteScanIds(s.store);
    assert IdSet(s.view.favorites) == FavoriteKeys(s.store) by {
      forall id | id in IdSet(s.view.favorites)
        ensures id in FavoriteKeys(s.store)
      {
        var p :| p in s.view.favorites && p.id == id;
      }
      forall id | id in FavoriteKeys(s.store)
        ensures id in IdSet(s.view.favorites)
      {
        assert s.store.rows[id] in s.view.favorites;
      }
    }
  }

  /** A successful fetch that re-delivers a stored favourite with the flag
      down (as the remote listing always does) clears the stored flag, while
      `favorites` still lists the old row and `photos` still shows the
      record as a favourite: the views no longer agree with the table until
      `fetchFavorites()` runs again. */
  lemma LiveFetchUnflagsFavorite(s: Session, page: int, a: Repo.Attempt, i: int)
    requires Coherent(s) && Repo.Succeeds(a)
    requires 0 <= i < |a.remote.value| && IsLastWithId(a.remote.value, i)
    requires !a.remote.value[i].isFavorite
    requires a.remote.value[i].id in FavoriteKeys(s.store)
    ensures var r := FetchPhotos(s, page, a);
      && !r.store.rows[a.remote.value[i].id].isFavorite
      && r.view.photos[i].isFavorite
      && !Coherent(r)
  {
    var id := a.remote.value[i].id;
    var oldRow := s.store.rows[id];
    assert oldRow in s.view.favorites;
    assert id in IdSet(s.view.favorites);
    var r := FetchPhotos(s, page, a);
    assert oldRow in r.view.favorites && !Stored(r.store, oldRow);
  }

  /** A caller that passes the record carrying the flag `isFavorite(id)`
      reports gets a true double toggle: doing that twice gives back the
      flag the map reported before, both in the map and in the table. */
  lemma UiDoubleToggleRestores(s: Session, photo: Photo)
    requires Valid(s.store)
    requires photo.id in s.store.rows
    ensures var once := ToggleFavorite(s, WithFavorite(photo, IsFavorite(s, photo.id)));
      var twice := ToggleFavorite(once, WithFavorite(photo, IsFavorite(once, photo.id)));
      && IsFavorite(twice, photo.id) == IsFavorite(s, photo.id)
      && twice.store.rows[photo.id].isFavorite == IsFavorite(s, photo.id)
  {
  }

  /** Toggling twice with the same argument does not undo the first toggle:
      both writes store the argument's flag negated. This is what the list
      screen does: its click handler passes the list item itself, not the
      copy that carries the reported flag, and the paged item is never
      patched between taps. */
  lemma SameArgumentToggleIsNotUndone(s: Session, photo: Photo)
    requires Valid(s.store)
    requires photo.id in s.store.rows
    ensures var twice := ToggleFavorite(ToggleFavorite(s, photo), photo);
      && twice.store.rows[photo.id].isFavorite == !photo.isFavorite
      && IsFavorite(twice, photo.id) == !photo.isFavorite
  {
  }

  /** The view-model search short-circuits the empty query, unlike the
      repository search beneath it, which returns the whole table. */
  lemma EmptyQueryClearsResults(s: Session)
    requires Valid(s.store)
    ensures SearchPhotos(s, "").view.searchResults == []
    ensures Repo.SearchPhotos(s.store, "") == GetAllPhotos(s.store)
  {
    Repo.RepositoryEmptySearchIsAll(s.store);
  }

  /** A first fetch into an empty table stores the record as a
      non-favourite and shows exactly that record. */
  lemma FirstFetchStoresNonFavorite(alice: Photo)
    requires alice == NewPhoto("1", "Alice", "https://picsum.photos/id/1/200")
    ensures var fetched := FetchPhotos(Create(EmptyStore()), 1, Repo.Attempt(Some([alice]), true));
      && fetched.store.rows == map["1" := alice]
      && fetched.view.photos == [alice]
      && !IsFavorite(fetched, "1")
  {
    var fetched := FetchPhotos(Create(EmptyStore()), 1, Repo.Attempt(Some([alice]), true));
    assert fetched.store.rows == map["1" := alice];
  }

  /** With a single row in the table, toggling that row as the list
      displays it makes it the only favourite. */
  lemma ToggleSoleRowMakesSoleFavorite(s: Session, p: Photo)
    requires !p.isFavorite
    requires Valid(s.store) && s.store.rows == map[p.id := p]
    ensures ToggleFavorite(s, p).view.favorites == [WithFavorite(p, true)]
    ensures IsFavorite(ToggleFavorite(s, p), p.id)
  {
    var toggled := ToggleFavorite(s, p);
    var starred := WithFavorite(p, true);
    assert toggled.store.rows == map[p.id := starred];
    var all := GetAllPhotos(toggled.store);
    assert |all| == 1 && starred in all;
    assert all == [starred];
  }

  /** The first-launch walk-through: fetch one record into an empty table,
      then star it from the list. */
  lemma FirstFetchThenToggle(alice: Photo)
    requires alice == NewPhoto("1", "Alice", "https://picsum.photos/id/1/200")
    ensures var fetched := FetchPhotos(Create(EmptyStore()), 1, Repo.Attempt(Some([alice]), true));
      var toggled := ToggleFavorite(fetched, fetched.view.photos[0]);
      && fetched.store.rows == map["1" := alice]
      && toggled.view.favorites == [WithFavorite(alice, true)]
      && IsFavorite(toggled, "1")
  {
    FirstFetchStoresNonFavorite(alice);
    var fetched := FetchPhotos(Create(EmptyStore()), 1, Repo.Attempt(Some([alice]), true));
    ToggleSoleRowMakesSoleFavorite(fetched, alice);
  }

  /** The operations a screen can trigger, run one after another. */
  datatype Action =
    | FetchPhotosAction(page: int, attempt: Repo.Attempt)
    | FetchFavoritesAction
    | ToggleAction(photo: Photo)
    | SearchAction(query: string)

  /** One action. Only a toggle writes the per-id map, and no action removes
      a row from the table. */
  function Step(s: Session, action: Action): (r: Session)
    requires Valid(s.store)
    ensures Valid(r.store)
    ensures s.store.rows.Keys <= r.store.rows.Keys
    ensures action.ToggleAction? ==>
      r.view.favoriteStates == s.view.favoriteStates[action.photo.id := !action.photo.isFavorite]
    ensures !action.ToggleAction? ==> r.view.favoriteStates == s.view.favoriteStates
  {
    match action
    case FetchPhotosAction(page, attempt) => FetchPhotos(s, page, attempt)
    case FetchFavoritesAction => FetchFavorites(s)
    case ToggleAction(photo) => ToggleFavorite(s, photo)
    case SearchAction(query) => SearchPhotos(s, query)
  }

  /** A sequence of actions, in order. The table stays well formed and only
      grows. */
  function Run(s: Session, actions: seq<Action>): (r: Session)
    requires Valid(s.store)
    ensures Valid(r.store)
    ensures s.store.rows.Keys <= r.store.rows.Keys
    decreases |actions|
  {
    if |actions| == 0 then s else Run(Step(s, actions[0]), actions[1..])
  }

  /** An id no action toggled reads as not favourite after a run that starts
      from a fresh view model, whatever the table says. */
  lemma {:induction false} NeverToggledReadsFalse(s: Session, actions: seq<Action>, id: string)
    requires Valid(s.store)
    requires id !in s.view.favoriteStates
    requires forall k :: 0 <= k < |actions| ==> !(actions[k].ToggleAction? && actions[k].photo.id == id)
    ensures !IsFavorite(Run(s, actions), id)
    decreases |actions|
  {
    if |actions| > 0 {
      NeverToggledReadsFalse(Step(s, actions[0]), actions[1..], id);
    }
  }

  /** The view model as built reports no favourites through `isFavorite`
      until something is toggled, even for rows stored as favourites. */
  lemma FreshViewModelReadsFalse(store: Store, actions: seq<Action>, id: string)
    requires Valid(store)
    requires forall k :: 0 <= k < |actions| ==> !(actions[k].ToggleAction? && actions[k].photo.id == id)
    ensures !IsFavorite(Run(Create(store), actions), id)
  {
    NeverToggledReadsFalse(Create(store), actions, id);
  }
}

=== FILE: sql_like.dfy ===
/** SQLite's `LIKE` operator as the search query uses it (no ESCAPE clause,
    default `case_sensitive_like = OFF`): `%` matches any run of characters,
    `_` any single character, and every other character matches itself up to
    ASCII case. */
module SqlLike {

  /** ASCII upper-case letters fold to lower case; every other character,
      including non-ASCII letters, is left alone. */
  function FoldCase(c: char): (d: char)
    ensures 'A' <= c <= 'Z' ==> 'a' <= d <= 'z' && d as int - c as int == 32
    ensures !('A' <= c <= 'Z') ==> d == c
  {
    if 'A' <= c <= 'Z' then (c as int + 32) as char else c
  }

  predicate SameFolded(a: char, b: char)
  {
    FoldCase(a) == FoldCase(b)
  }

  /** `t LIKE p`. */
  predicate Like(t: string, p: string)
    decreases |t| + |p|
  {
    if |p| == 0 then |t| == 0
    else if p[0] == '%' then Like(t, p[1..]) || (|t| > 0 && Like(t[1..], p))
    else |t| > 0 && (p[0] == '_' || SameFolded(p[0], t[0])) && Like(t[1..], p[1..])
  }

  /** The pattern `'%' || q || '%'` the search query builds around its argument. */
  function ContainsPattern(q: string): (p: string)
    ensures |p| == |q| + 2 && p[0] == '%' && p[|p| - 1] == '%' && p[1..|p| - 1] == q
  {
    "%" + q + "%"
  }

  /** `q` holds neither of LIKE's wildcard characters. */
  predicate WildcardFree(q: string)
  {
    forall i :: 0 <= i < |q| ==> q[i] != '%' && q[i] != '_'
  }

  /** `a` and `b` are equal up to ASCII case. */
  ghost predicate FoldedEqual(a: string, b: string)
  {
    |a| == |b| && forall i :: 0 <= i < |a| ==> SameFolded(a[i], b[i])
  }

  /** `q` occurs in `t` at offset `i`, up to ASCII case. */
  ghost predicate MatchesAt(t: string, q: string, i: int)
  {
    0 <= i && i + |q| <= |t| && FoldedEqual(t[i..i + |q|], q)
  }

  /** Reference definition: `q` is a substring of `t`, up to ASCII case. */
  ghost predicate FoldedInfix(q: string, t: string)
  {
    exists i :: MatchesAt(t, q, i)
  }

  ghost predicate LikeFrom(t: string, p: string, i: int)
  {
    0 <= i <= |t| && Like(t[i..], p)
  }

  /** A lone `%` matches every string. */
  lemma {:induction false} PercentMatchesAll(t: string)
    ensures Like(t, "%")
    decreases |t|
  {
    assert "%"[1..] == "";
    if |t| > 0 {
      PercentMatchesAll(t[1..]);
    }
  }

  lemma FoldedEqualCons(a: string, b: string)
    requires |a| > 0 && |b| > 0
    ensures FoldedEqual(a, b) <==> SameFolded(a[0], b[0]) && FoldedEqual(a[1..], b[1..])
  {
    if SameFolded(a[0], b[0]) && FoldedEqual(a[1..], b[1..]) {
      forall i | 0 <= i < |a|
        ensures SameFolded(a[i], b[i])
      {
        if i > 0 {
          assert a[i] == a[1..][i - 1] && b[i] == b[1..][i - 1];
        }
      }
    }
  }

  /** A wildcard-free `q` followed by `%` matches exactly the strings that
      start with `q`, up to case. */
  lemma {:induction false} LikePrefix(t: string, q: string)
    requires WildcardFree(q)
    ensures Like(t, q + "%") <==> |q| <= |t| && FoldedEqual(t[..|q|], q)
    decreases |q|
  {
    var p := q + "%";
    if |q| == 0 {
      assert p == "%";
      PercentMatchesAll(t);
      assert FoldedEqual(t[..0], q);
    } else {
      assert p[0] == q[0] && p[1..] == q[1..] + "%";
      assert q[0] != '%' && q[0] != '_';
      if |t| > 0 {
        assert WildcardFree(q[1..]) by {
          forall i | 0 <= i < |q[1..]|
            ensures q[1..][i] != '%' && q[1..][i] != '_'
          {
            assert q[1..][i] == q[i + 1];
          }
        }
        LikePrefix(t[1..], q[1..]);
        if |q| <= |t| {
          assert t[1..][..|q| - 1] == t[..|q|][1..];
          FoldedEqualCons(t[..|q|], q);
        }
      }
    }
  }

  /** A leading `%` lets the rest of the pattern match any suffix. */
  lemma {:induction false} LikeLeadingPercent(t: string, r: string)
    ensures Like(t, "%" + r) <==> exists i :: LikeFrom(t, r, i)
    decreases |t|
  {
    var p := "%" + r;
    assert p[0] == '%' && p[1..] == r;
    assert t[0..] == t;
    assert Like(t, p) == (Like(t, r) || (|t| > 0 && Like(t[1..], p)));
    if Like(t, r) {
      assert LikeFrom(t, r, 0);
    }
    if |t| == 0 {
      if exists i :: LikeFrom(t, r, i) {
        var i :| LikeFrom(t, r, i);
        assert i == 0 && Like(t, r);
      }
    } else {
      LikeLeadingPercent(t[1..], r);
      if Like(t, p) && !Like(t, r) {
        var i :| LikeFrom(t[1..], r, i);
        assert t[1..][i..] == t[i + 1..];
        assert LikeFrom(t, r, i + 1);
      }
      if exists i :: LikeFrom(t, r, i) {
        var i :| LikeFrom(t, r, i);
        if i > 0 {
          assert t[1..][i - 1..] == t[i..];
          assert LikeFrom(t[1..], r, i - 1);
          assert Like(t[1..], p);
        } else {
          assert Like(t, r);
        }
        assert Like(t, p);
      }
    }
  }

  /** For a query without wildcards, `t LIKE '%' || q || '%'` holds exactly
      when `q` is a substring of `t` up to ASCII case. */
  lemma LikeIsFoldedInfix(t: string, q: string)
    requires WildcardFree(q)
    ensures Like(t, ContainsPattern(q)) <==> FoldedInfix(q, t)
  {
    assert ContainsPattern(q) == "%" + (q + "%");
    LikeLeadingPercent(t, q + "%");
    forall i | 0 <= i <= |t|
      ensures LikeFrom(t, q + "%", i) <==> MatchesAt(t, q, i)
    {
      LikePrefix(t[i..], q);
      if i + |q| <= |t| {
        assert t[i..][..|q|] == t[i..i + |q|];
      }
    }
    if Like(t, ContainsPattern(q)) {
      var i :| LikeFrom(t, q + "%", i);
      assert MatchesAt(t, q, i);
    }
    if FoldedInfix(q, t) {
      var i :| MatchesAt(t, q, i);
      assert LikeFrom(t, q + "%", i);
    }
  }

  /** The empty query builds the pattern `%%`, which matches every string. */
  lemma EmptyQueryMatchesAll(t: string)
    ensures Like(t, ContainsPattern(""))
  {
    assert ContainsPattern("") == "%%";
    assert "%%"[1..] == "%";
    PercentMatchesAll(t);
  }
}

=== FILE: wrappers.dfy ===
/** The optional value used wherever the Kotlin source has a nullable type. */
module Wrappers {

  datatype Option<+T> = None | Some(value: T) {

    /** The value, or `default` when absent (Kotlin's `?:`). */
    function GetOr(default: T): T
    {
      match this
      case Some(v) => v
      case None => default
    }
  }
}
